=== FILE: README.md ===
# Safetrack telemetry and session core, in Dafny

Safetrack is a truck-tracking dashboard. A Flask backend (`Safetrack/app.py`) keeps five trucks in
memory. It checks their fuel and temperature against configurable thresholds, logs the alerts to
`alertas.json`, keeps route history in `historial.json`, and resets passwords in `auth.json`. A
browser client (`Safetrack/app.js`) logs a user in against `auth.json` and keeps the session in
local storage. Once a second it polls `/sensores` and fans each snapshot out to three steps: the
map markers, the "Datos del Vehículo" panel, and the alert panel with its history in local storage.

This project models that core as pure functions over immutable values and proves what each step
guarantees.

- `Telemetry`: the snapshot as an ordered sequence of `(id, entry)` pairs, in `Object.keys` order,
  and the gate that drops `null`, primitive and empty payloads. An entry is `null` or a vehicle
  whose coordinates and readings are `Option` values, and only null/non-null and truthy/falsy
  matter for them. `Renderable` filters the snapshot down to the entries with valid gps.
- `Markers`: the map's layers, and `actualizarMapa`. It removes every marker, keeps the tile
  layer, and adds one marker per entry with valid gps. Each marker carries its click-handler
  selection.
- `SensorPanel`: `mostrarDatosSensores`. It clears the panel, then appends one block per entry
  with valid gps. A falsy reading shows as "Desconocida".
- `AlertHistory`: `generarAlertas`. Local storage content is classified by what `JSON.parse`
  makes of it. The walk renders one line and appends one event per alert occurrence, then writes
  the history back once.
- `Session` / `Accounts`: `saveSession`, `getSession`, `validateLogin`, `logout` and
  `redirectIfAuthenticated`, over the user list and the `currentUser` slot.
- `Dashboard`: one poll tick of `obtenerDatosBuses`, plus the cross-step properties. Markers and
  panel agree, a click shows one vehicle, and nothing is deduplicated across ticks.
- `Fleet`: `inicializar_camiones`, `actualizar_camion`, the three threshold rules,
  `generar_alerta`, `generar_recorrido` and the truck lookup of `obtener_datos_camion`.
- `PasswordReset`: `update_password`.

In these details the model follows the code rather than the obvious reading of it:

- The placeholder "Desconocida" replaces any falsy reading. A fuel level of 0 or a temperature of
  0 is included, not only absent or null readings.
- `generarAlertas` reads `data[id]` without the `|| {}` guard that the other two steps use. A
  `null` entry therefore throws a `TypeError`. The tick's `catch` absorbs it, but the history is
  not written for that tick, and lines already rendered stay on screen.
- A stored history that parses to a truthy non-array (an object, a number, `true`) is not treated
  as empty. Pushing the first alert onto it throws, which again skips the write. Absent,
  unparsable and falsy content (`null`, `0`, `false`, `""`) is treated as empty.
- Without the alert panel on the page, `generarAlertas` returns before it loads or writes the
  history.
- The `status = 1` that a login sets lives only in the in-memory user list. `redirectIfAuthenticated`
  runs only from `loadAuthData`, right after that list is replaced by a fresh read of `auth.json`.
  After a reload the dashboard therefore opens only when `auth.json` itself marks the user active
  (see Findings).

Inputs that the code takes from the outside world are parameters:

- the fetched payload, or a transport error;
- the clock reading (`now`);
- whether local storage accepts the write (`writeOk`);
- the threshold configuration.

## Model

| member | source | states |
|---|---|---|
| Telemetry.Accept | Safetrack/app.js:248-256 | a payload becomes a snapshot iff it is an object with at least one key; `null`, primitives, `{}` and transport errors yield nothing |
| Telemetry.Renderable | Safetrack/app.js:292-295 | the renderable entries are exactly the snapshot entries with a truthy `gps` whose `latitud` and `longitud` are non-null, and there are no more of them than entries |
| Telemetry.RenderableConcat | Safetrack/app.js:292-312 | filtering distributes over concatenation, so renderable entries keep the snapshot's key order |
| Telemetry.RenderableDistinct | Safetrack/app.js:292-301 | filtering a snapshot with distinct keys keeps the keys distinct |
| Markers.Reconcile | Safetrack/app.js:281-313 | before the map exists nothing changes; otherwise the non-marker layers are unchanged, there is one marker per renderable entry, and a marker is on the map iff it is the fresh marker of an entry with valid gps (no old marker survives) |
| Markers.ReconcileMarkerIds | Safetrack/app.js:285-312 | after reconciliation the set of marker ids equals the set of snapshot ids with valid gps |
| Markers.ReconcileOneMarkerPerId | Safetrack/app.js:292-301 | with distinct snapshot keys no two markers share an id |
| Markers.ReconcileIdempotent | Safetrack/app.js:284-312 | reconciling twice with the same snapshot equals reconciling once |
| Markers.ZeroCoordinateIsPlotted | Safetrack/app.js:295 | a vehicle at latitude 0 and longitude 0 still gets a marker |
| SensorPanel.Display | Safetrack/app.js:338-339 | a reading shows "Desconocida" iff it is absent, null or falsy (0 included); otherwise the value itself is shown |
| SensorPanel.EntriesMembership | Safetrack/app.js:326-344 | the panel has one block per entry with valid gps, and a block is shown iff it is the block of such an entry |
| SensorPanel.Render | Safetrack/app.js:315-345 | without the container nothing is drawn; otherwise the previous contents are replaced by exactly the blocks of the entries with valid gps |
| SensorPanel.EntriesConcat | Safetrack/app.js:326-344 | the blocks of two concatenated snapshots are the first's blocks followed by the second's, so key order is kept |
| SensorPanel.EntriesFollowRenderable | Safetrack/app.js:326-343 | the i-th block shows the i-th entry with valid gps |
| SensorPanel.RenderIdempotent | Safetrack/app.js:323 | rendering the same snapshot twice gives the same panel as rendering it once |
| SensorPanel.RenderSingle | Safetrack/app.js:304-306 | a single-entry selection shows exactly that vehicle if its gps is valid, and an empty panel otherwise |
| AlertHistory.Load | Safetrack/app.js:354-359 | absent, unparsable and falsy stored history loads as the empty array; a stored array loads as itself; a truthy non-array stays a non-array |
| AlertHistory.Save | Safetrack/app.js:375-379 | the written history loads back as exactly the in-memory history (serialization round trip) |
| AlertHistory.WalkThrows | Safetrack/app.js:361-373 | the walk over the snapshot completes iff no entry is `null` and either the history is an array or no alert has to be pushed |
| AlertHistory.WalkAppends | Safetrack/app.js:361-373 | a completed walk over an array history appends exactly the cycle's events and renders exactly the cycle's lines |
| AlertHistory.WalkQuiet | Safetrack/app.js:361-373 | a walk with no alerts renders nothing and leaves any history, array or not, untouched |
| AlertHistory.WalkPrefix | Safetrack/app.js:364-368 | even when the walk throws, the lines rendered are a prefix of the cycle's lines |
| AlertHistory.GenerateAlerts | Safetrack/app.js:348-380 | without the panel nothing happens; when it throws or the write fails, the stored history is unchanged; a stored truthy non-array always stays as it was; otherwise, over an array or empty history, it becomes the loaded history followed by the cycle's events; a loaded array is always a prefix of the resulting one |
| AlertHistory.CycleEventsCount | Safetrack/app.js:361-373 | a cycle appends exactly Σ len(alertas) events |
| AlertHistory.CycleEventsOrder | Safetrack/app.js:361-371 | the j-th alert of the i-th vehicle is the event at position (alerts of earlier vehicles) + j and carries that vehicle's id: ordered by vehicle, then by alert |
| AlertHistory.CorruptHistoryStartsEmpty | Safetrack/app.js:354-379 | absent or corrupt history is treated as empty and the cycle still writes, even with no alerts |
| AlertHistory.GenerateTwice | Safetrack/app.js:348-380 | two cycles with the same snapshot grow the history by 2·Σ len(alertas) with no deduplication, each earlier history a prefix of the later one, and leave the same panel |
| Seqs.FindFirst | Safetrack/app.js:35 | the search returns the first index satisfying the predicate, or none when no element does |
| Session.SaveSession | Safetrack/app.js:24-31 | after saving, `getSession` returns the user name and the alert history is untouched |
| Session.ValidateLogin | Safetrack/app.js:34-43 | login succeeds iff some user has exactly these credentials; on success only the first such user's status becomes 1 and the session holds the name; on failure nothing changes |
| Session.Logout | Safetrack/app.js:86-95 | with a truthy session only the first user of that name becomes inactive and the session is removed; with an absent or empty session nothing changes |
| Session.RedirectIfAuthenticated | Safetrack/app.js:75-83 | the dashboard opens iff the session is truthy and the first user of that name has status 1 |
| Session.Reload | Safetrack/app.js:7-21 | a page load replaces the user list by the contents of `auth.json` and keeps local storage; the dashboard opens iff the session is truthy and the file's first user of that name has status 1 |
| Session.LoginThenReload | Safetrack/app.js:7-43 | after a successful login and a reload the session still names the user, and the dashboard opens iff `auth.json` marks the file's first user of that name active, whatever status the login set |
| Session.ReloadForgetsLogin | Safetrack/app.js:13-17 | a user with status 0 in `auth.json` logs in (the in-memory check would now open the dashboard), yet after the reload the dashboard stays closed although the session still holds the name |
| Session.ReloadKeepingSession | Safetrack/app.js:75-83 | a page load that trusts the session slot opens the dashboard iff the session is truthy and `auth.json` still lists a user of that name |
| Session.LoginSurvivesReload | Safetrack/app.js:34-43 | with the session trusted, a successful login survives a reload while the user is still listed in `auth.json` |
| Session.LogoutClosesSession | Safetrack/app.js:75-96 | after logout the dashboard does not open, neither on the same page, nor after the reload `logout` ends with, nor with a page load that trusts the session |
| Session.LoginLogoutRestoresStatus | Safetrack/app.js:34-95 | with unique names, login then logout deactivates exactly the user who logged in and clears the session |
| Dashboard.Tick | Safetrack/app.js:248-265 | a rejected payload changes nothing; an accepted one leaves the marker ids equal to the valid-gps ids and the panel sized to the valid-gps entries, never touches the user list or session, only extends a loaded array history, and leaves a stored non-array history as it was |
| Dashboard.TickRunsAllThree | Safetrack/app.js:258-260 | an accepted snapshot goes to the map, the sensor panel and the alert step; the map and the sensor panel take their new state whatever the alert step does, and the stored history is the alert step's result |
| Dashboard.MarkersMatchPanel | Safetrack/app.js:292-344 | after a tick the i-th marker and the i-th sensor block describe the same vehicle |
| Dashboard.ClickShowsOneVehicle | Safetrack/app.js:304-306 | clicking any marker shows exactly one block, for that marker's vehicle |
| Dashboard.TickTwice | Safetrack/app.js:248-265 | the same payload on two ticks grows the history by 2·Σ len(alertas) |
| Dashboard.ScenarioOneVehicle | Safetrack/app.js:281-343 | one vehicle with position, fuel 80 and temperature 22 gives one marker labelled "Camión v1", one block with 80 and 22, and no new event |
| Dashboard.ScenarioNoGps | Safetrack/app.js:292-371 | a vehicle without gps and with one alert gives no marker, an empty panel and exactly one event |
| Dashboard.ScenarioEmptyPayload | Safetrack/app.js:253-256 | an empty object changes nothing |
| Dashboard.ScenarioMixedGps | Safetrack/app.js:292-332 | two vehicles, one without a latitude, give one marker and one block |
| Fleet.ThresholdAlerts | Safetrack/app.py:71-78 | the fuel alert fires iff gasolina ≤ gasolina_baja, "Temperatura alta" iff temperatura > temperatura_alta, "Temperatura baja" iff temperatura < temperatura_baja; at most three, in rule order, with no repeats |
| Fleet.AtMostOneTemperatureAlert | Safetrack/app.py:75-78 | when temperatura_baja ≤ temperatura_alta, the two temperature alerts never fire together |
| Fleet.MessagesDistinct | Safetrack/app.py:73-78 | the three rules write three different texts, so a record's rule and its stored message determine each other |
| Fleet.LogAlert | Safetrack/app.py:80-93 | one record is appended, and the previous log is a prefix of the new one |
| Fleet.LogAlerts | Safetrack/app.py:73-78 | successive alert writes extend the log by exactly the truck's records, in rule order |
| Fleet.UpdateTruck | Safetrack/app.py:63-78 | an unknown id raises KeyError; otherwise only that truck changes, its `alertas` becomes empty, the generated alerts go only to the alert log, and the route history is untouched |
| Fleet.InitializeTrucks | Safetrack/app.py:46-61 | afterwards the trucks are exactly ids 1..5, each with gasolina 50, temperatura 25 and empty `alertas` and `recorrido`; the alert log becomes the old log followed by truck 1's records, then truck 2's, up to truck 5's (each truck's records in rule order), so it grows by five times the rules the initial truck triggers and stays the same when no rule fires; the route history is untouched |
| Fleet.InitLogAppended | Safetrack/app.py:49-61 | the records of `n` start-up rounds add `n` times the rules to the log, each naming one of trucks 1..n and one of the rules, and nothing when no rule fires |
| Fleet.InitialTableFive | Safetrack/app.py:48-60 | after five rounds on a cleared table exactly trucks 1..5 exist, each in the initial state |
| Fleet.DefaultConfigIsQuiet | Safetrack/app.py:19-23 | under the default thresholds 10/35/15 the initial truck triggers no rule |
| Fleet.TruckById | Safetrack/app.py:131-134 | an unknown id yields the not-found reply; a known id yields its truck |
| Fleet.RecordRoute | Safetrack/app.py:95-105 | an unseen key gets a new list; the point is appended to that key's list only, and every other key keeps its history |
| Fleet.RecordRouteAsWritten | Safetrack/app.py:97-105 | with an int id, the stored list under the id's decimal key becomes just the new point, and every other key keeps its list |
| Fleet.RecordRouteById | Safetrack/app.py:97-105 | with the id converted to the file's key, the list under that key becomes its previous contents (or [] for an unseen key) followed by the new point; other keys are unchanged |
| Fleet.RecordRouteAsWrittenLosesPoints | Safetrack/app.py:97-105 | two points recorded for truck 1 as written leave only the second |
| Fleet.RecordRouteByIdKeepsPoints | Safetrack/app.py:97-105 | two points recorded for truck 1 with the corrected lookup leave both, in order |
| PasswordReset.UpdatePassword | Safetrack/app.py:170-194 | a missing or empty field gives 400; a user without a recovery code before any match gives 500; no matching code gives 404; only 200 changes the users, and then only the first user with the code gets the new password |
| PasswordReset.ResetSucceedsWithKnownCode | Safetrack/app.py:183-192 | when every user has a code and some user has the requested one, the reset succeeds |
| PasswordReset.ResetThenLogin | Safetrack/app.py:183-190 | after a successful reset, that user's name and the new password pass the dashboard's login check |

## Findings

| source | as written | input that shows it | evidently intended | confidence | as-written member | corrected member |
|---|---|---|---|---|---|---|
| Safetrack/app.py:97-105 | `generar_recorrido` looks up `camion_id` in the dict read back from `historial.json`. After a JSON round trip all of its keys are strings. With an int id (the truck table and the `<int:camion_id>` route use ints), `camion_id not in historial` always holds, so a fresh `[d]` is put under the int key. `json.dump` writes it after the string key of the same text, and `json.load` keeps the later key, so the stored list is replaced. | `generar_recorrido(1, d1)` then `generar_recorrido(1, d2)` on `{}` leaves `{"1": [d2]}` | `{"1": [d1, d2]}`: the points accumulate per truck | medium, not executed; no caller exists in the code, so a caller passing string ids would not see it | Fleet.RecordRouteAsWritten (shown by Fleet.RecordRouteAsWrittenLosesPoints) | Fleet.RecordRouteById (shown by Fleet.RecordRouteByIdKeepsPoints) |
| Safetrack/app.js:13-17 | `validateLogin` sets `status = 1` only on the in-memory `auth` list and saves the name in local storage. On the next page load `loadAuthData` replaces `auth` with a fresh read of `auth.json`, which nothing in the dashboard writes, and only then calls `redirectIfAuthenticated`, which demands `status === 1`. The saved session is therefore ignored unless the file itself marks the user active. | a user whose `auth.json` entry has status 0 logs in, then reloads the page: `currentUser` still names the user, but the login form is shown | a user who logged in and has not logged out gets the dashboard back on reload, as the comment at app.js:16 says ("check whether the user is already authenticated when the application loads") | low, not executed; it depends on the statuses stored in `auth.json`, which is not part of this model | Session.Reload (shown by Session.ReloadForgetsLogin) | Session.ReloadKeepingSession (shown by Session.LoginSurvivesReload and Session.LogoutClosesSession) |

## Left out

- AlertHistory.GenerateAlerts: every event of one call carries one timestamp `now`. The code reads the clock once per event; the timestamps are opaque either way.
- Fleet.UpdateTruck: all records of one update carry one timestamp `now`. The code calls `time.time()` once per record.
- Fleet.InitializeTrucks: the five updates share one timestamp and one configuration. The code rereads `config.json` for each truck, and a file changed mid-loop is not modelled.
- Dashboard.Tick: marker creation is assumed to succeed for any non-null coordinates. Leaflet throwing on a non-numeric coordinate is not modelled.
- `alertas` is modelled as a sequence of strings. Other values are not modelled: a number or a plain object fails the `alertas.length > 0` test and is skipped, while a non-empty string passes it and then has no `forEach`, so it throws. Non-string alert codes are not modelled either.
- Request fields of the password reset are strings or missing. Other JSON types in `recoveryCode` or `newPassword` are not modelled.
- A failure to read or write `auth.json` during the reset (the other path to 500) is left out, because it is file I/O.
- The same applies to a non-JSON request body and to exceptions in `leer_configuracion`.
- The fetch inside `loadAuthData` and its error path, the `updatePassword` network client, and the login and recovery form wiring are left out. They are I/O or DOM event plumbing around the modelled functions; the file's contents are a parameter of `Session.Reload`.
- `loadDashboardComponent`, `loadRecoveryComponent` and `llamarSoporte` are left out because they are HTML templating with no behaviour to prove.
- The page reload at the end of `logout` and after a password reset is modelled only for the session: `Session.Reload` re-reads `auth.json` and re-runs the redirect check. That the reload also discards the map, the panels and the poll timer is not modelled.
- `inicializarMapa` is left out because it is Leaflet set-up. The model starts from a map with a tile layer, or from an uninitialised map.
- `setInterval` timing, overlapping ticks and races between browser tabs are left out because they are scheduling and concurrency. A tick is one atomic function.
- `calcularDistanciaHaversine` is left out because it is floating-point trigonometry and nothing calls it.
- The Flask routes are left out because they are transport wrappers around the modelled helpers. This covers `obtener_datos`, `obtener_configuracion`, `actualizar_configuracion`, `obtener_alertas` and `obtener_historial`, plus CORS and JSON file encoding. As written, both `/sensores` routes first call the undefined `actualizar_camiones` and fail before the truck lookup; `Fleet.TruckById` models the lookup itself.
- The `seek`/`dump` mechanics of the JSON files are left out. Each file is modelled as the value it holds: the alert log as a sequence, the route history as a map from string keys.

=== FILE: accounts.dfy ===
/** The user list of `auth.json`, read by the dashboard and rewritten by the backend's password
    reset. */
module Accounts {
  import opened Wrappers

  /** One user; `recoveryCode` is `None` when the entry has no such key. `status` is 1 while a
      session is active and 0 after logout. */
  datatype User = User(usr: string, pwd: string, status: int, recoveryCode: Option<string>)

  /** No two users share a user name. */
  predicate UniqueNames(users: seq<User>)
  {
    forall i, j :: 0 <= i < j < |users| ==> users[i].usr != users[j].usr
  }
}

=== FILE: alert_history.dfy ===
/** The alert panel `alertas-container` and the alert history kept in the browser's local storage
    under "historialAlertas" (Safetrack/app.js `generarAlertas`). */
module AlertHistory {
  import opened Wrappers
  import opened Telemetry

  /** One history record `{ id, alerta, timestamp }`; the timestamp is an opaque ISO string. */
  datatype AlertEvent = AlertEvent(id: string, alerta: string, timestamp: string)

  /** One transient line of the alert panel, "Camión <id>: <alerta>". */
  datatype AlertLine = AlertLine(id: string, alerta: string)

  /** What the store holds under "historialAlertas", classified by what `JSON.parse` makes of it. */
  datatype StoredHistory =
    | NoHistory                          // the key is absent: `JSON.parse(null)` is `null`
    | Unparsable                         // `JSON.parse` throws, or the store cannot be read
    | FalsyDocument                      // parses to `null`, `false`, `0` or `""`
    | EventArray(events: seq<AlertEvent>)
    | OtherDocument                      // parses to a truthy non-array

  /** The in-memory history after loading: an array, or a value whose `push` throws. */
  datatype Loaded = Events(events: seq<AlertEvent>) | NotAnArray

  /** Loading: anything absent, corrupt or falsy becomes the empty array (`|| []`). */
  function Load(h: StoredHistory): (r: Loaded)
    ensures r.NotAnArray? <==> h.OtherDocument?
    ensures h.EventArray? ==> r == Events(h.events)
    ensures h.NoHistory? || h.Unparsable? || h.FalsyDocument? ==> r == Events([])
  {
    match h
    case EventArray(es) => Events(es)
    case OtherDocument => NotAnArray
    case _ => Events([])
  }

  /** Writing back `JSON.stringify(historialAlertas)`. */
  function Save(l: Loaded): (r: StoredHistory)
    ensures Load(r) == l
    ensures r.NoHistory? == false && r.Unparsable? == false
  {
    match l
    case Events(es) => EventArray(es)
    case NotAnArray => OtherDocument
  }

  /** The alerts of an entry; reading a `null` entry throws before this is reached. */
  function AlertsOf(e: Entry): seq<string>
  {
    if e.Vehicle? then e.state.alertas else []
  }

  /** Σ len(alertas) over the snapshot. */
  function AlertCount(s: Snapshot): nat
  {
    if |s| == 0 then 0 else |AlertsOf(s[0].1)| + AlertCount(s[1..])
  }

  predicate NoNullEntries(s: Snapshot)
  {
    forall k :: 0 <= k < |s| ==> s[k].1.Vehicle?
  }

  function VehicleEvents(id: string, alertas: seq<string>, now: string): (r: seq<AlertEvent>)
    ensures |r| == |alertas|
  {
    seq(|alertas|, j requires 0 <= j < |alertas| => AlertEvent(id, alertas[j], now))
  }

  function VehicleLines(id: string, alertas: seq<string>): (r: seq<AlertLine>)
    ensures |r| == |alertas|
  {
    seq(|alertas|, j requires 0 <= j < |alertas| => AlertLine(id, alertas[j]))
  }

  /** The events one cycle appends: vehicle by vehicle, alert by alert. */
  function CycleEvents(s: Snapshot, now: string): seq<AlertEvent>
  {
    if |s| == 0 then [] else VehicleEvents(s[0].0, AlertsOf(s[0].1), now) + CycleEvents(s[1..], now)
  }

  /** The lines one cycle renders, in the same order. */
  function CycleLines(s: Snapshot): seq<AlertLine>
  {
    if |s| == 0 then [] else VehicleLines(s[0].0, AlertsOf(s[0].1)) + CycleLines(s[1..])
  }

  /** The running state of one `generarAlertas` walk: lines rendered so far, the in-memory
      history, and whether a `TypeError` escaped. */
  datatype Pass = Pass(lines: seq<AlertLine>, loaded: Loaded, threw: bool)

  /** One vehicle's `alertas.forEach`: each alert renders a line, then is pushed onto the history;
      the push throws at the first alert when the history is not an array. */
  function VehiclePass(id: string, alertas: seq<string>, loaded: Loaded, now: string): Pass
  {
    if |alertas| == 0 then Pass([], loaded, false)
    else match loaded
      case Events(es) => Pass(VehicleLines(id, alertas), Events(es + VehicleEvents(id, alertas, now)), false)
      case NotAnArray => Pass([AlertLine(id, alertas[0])], loaded, true)
  }

  /** `Object.keys(data).forEach(...)`: destructuring a `null` entry throws and ends the walk. */
  function Walk(s: Snapshot, loaded: Loaded, now: string): Pass
  {
    if |s| == 0 then Pass([], loaded, false)
    else
      match s[0].1
      case NullEntry => Pass([], loaded, true)
      case Vehicle(st) =>
        var v := VehiclePass(s[0].0, st.alertas, loaded, now);
        if v.threw then v
        else
          var rest := Walk(s[1..], v.loaded, now);
          Pass(v.lines + rest.lines, rest.loaded, rest.threw)
  }

  lemma NoNullTail(s: Snapshot)
    requires |s| > 0
    ensures NoNullEntries(s) <==> s[0].1.Vehicle? && NoNullEntries(s[1..])
  {
    if s[0].1.Vehicle? && NoNullEntries(s[1..]) {
      forall k | 0 <= k < |s| ensures s[k].1.Vehicle? {
        if k > 0 { assert s[k] == s[1..][k - 1]; }
      }
    }
  }

  /** The walk completes exactly when no entry is `null` and either the history is an array or
      there is nothing to push. */
  lemma {:induction false} WalkThrows(s: Snapshot, loaded: Loaded, now: string)
    ensures !Walk(s, loaded, now).threw <==> NoNullEntries(s) && (loaded.Events? || AlertCount(s) == 0)
  {
    if |s| > 0 {
      NoNullTail(s);
      if s[0].1.Vehicle? {
        var v := VehiclePass(s[0].0, s[0].1.state.alertas, loaded, now);
        if !v.threw {
          WalkThrows(s[1..], v.loaded, now);
          assert v.loaded.Events? <==> loaded.Events?;
        }
      }
    }
  }

  /** A completed walk over an array history appends the cycle's events and renders its lines. */
  lemma {:induction false} WalkAppends(s: Snapshot, es: seq<AlertEvent>, now: string)
    requires NoNullEntries(s)
    ensures Walk(s, Events(es), now) == Pass(CycleLines(s), Events(es + CycleEvents(s, now)), false)
  {
    if |s| > 0 {
      NoNullTail(s);
      var alertas := s[0].1.state.alertas;
      var ves := VehicleEvents(s[0].0, alertas, now);
      var vls := VehicleLines(s[0].0, alertas);
      var v := VehiclePass(s[0].0, alertas, Events(es), now);
      assert v == Pass(vls, Events(es + ves), false) by {
        if |alertas| == 0 {
          assert ves == [] && vls == [];
          assert es + ves == es;
        }
      }
      WalkAppends(s[1..], es + ves, now);
      var rest := Walk(s[1..], v.loaded, now);
      assert Walk(s, Events(es), now) == Pass(v.lines + rest.lines, rest.loaded, rest.threw);
      assert es + ves + CycleEvents(s[1..], now) == es + (ves + CycleEvents(s[1..], now));
      assert CycleEvents(s, now) == ves + CycleEvents(s[1..], now);
      assert CycleLines(s) == vls + CycleLines(s[1..]);
    } else {
      assert es + [] == es;
    }
  }

  /** A walk with nothing to push leaves any history as it was and renders nothing. */
  lemma {:induction false} WalkQuiet(s: Snapshot, loaded: Loaded, now: string)
    requires NoNullEntries(s) && AlertCount(s) == 0
    ensures Walk(s, loaded, now) == Pass([], loaded, false)
    ensures CycleLines(s) == [] && CycleEvents(s, now) == []
  {
    if |s| > 0 {
      NoNullTail(s);
      WalkQuiet(s[1..], loaded, now);
    }
  }

  /** Whatever happens, the lines rendered are a prefix of the cycle's lines. */
  lemma {:induction false} WalkPrefix(s: Snapshot, loaded: Loaded, now: string)
    ensures Walk(s, loaded, now).lines <= CycleLines(s)
  {
    if |s| > 0 && s[0].1.Vehicle? {
      var alertas := s[0].1.state.alertas;
      var v := VehiclePass(s[0].0, alertas, loaded, now);
      var vl := VehicleLines(s[0].0, alertas);
      if !v.threw {
        WalkPrefix(s[1..], v.loaded, now);
        assert v.lines == vl;
      } else {
        assert v.lines == [vl[0]];
      }
    }
  }

  /** Everything the walk guarantees, gathered for `GenerateAlerts`. */
  lemma WalkFacts(s: Snapshot, loaded: Loaded, now: string)
    ensures !Walk(s, loaded, now).threw <==> NoNullEntries(s) && (loaded.Events? || AlertCount(s) == 0)
    ensures Walk(s, loaded, now).lines <= CycleLines(s)
    ensures NoNullEntries(s) && loaded.Events? ==>
      Walk(s, loaded, now) == Pass(CycleLines(s), Events(loaded.events + CycleEvents(s, now)), false)
    ensures NoNullEntries(s) && AlertCount(s) == 0 ==> Walk(s, loaded, now) == Pass([], loaded, false)
  {
    WalkThrows(s, loaded, now);
    WalkPrefix(s, loaded, now);
    if NoNullEntries(s) && loaded.Events? {
      WalkAppends(s, loaded.events, now);
    }
    if NoNullEntries(s) && AlertCount(s) == 0 {
      WalkQuiet(s, loaded, now);
    }
  }

  /** What one call leaves behind: the alert panel, the stored history, and whether it threw. */
  datatype AlertsOutcome = AlertsOutcome(panel: Option<seq<AlertLine>>, stored: StoredHistory, threw: bool)

  /** `generarAlertas(data)`. Without the panel on the page nothing happens, not even the history
      write. Otherwise the panel is cleared, the history loaded, every alert rendered and appended,
      and the history written back once (the write may fail, which changes nothing). A throw skips
      the write but keeps the lines already rendered. */
  function GenerateAlerts(panel: Option<seq<AlertLine>>, stored: StoredHistory, s: Snapshot,
                          now: string, writeOk: bool): (r: AlertsOutcome)
    ensures panel.None? ==> r == AlertsOutcome(panel, stored, false)
    ensures panel.Some? ==> r.panel.Some? && r.panel.value <= CycleLines(s)
    ensures r.threw <==>
      panel.Some? && (!NoNullEntries(s) || (Load(stored).NotAnArray? && AlertCount(s) > 0))
    ensures r.threw || !writeOk ==> r.stored == stored
    ensures panel.Some? && !r.threw ==> r.panel == Some(if Load(stored).Events? then CycleLines(s) else [])
    ensures panel.Some? && !r.threw && writeOk && Load(stored).Events? ==>
      r.stored == EventArray(Load(stored).events + CycleEvents(s, now))
    ensures Load(stored).Events? ==>
      Load(r.stored).Events? && Load(stored).events <= Load(r.stored).events
    ensures Load(stored).NotAnArray? ==> r.stored == stored
  {
    if panel.None? then AlertsOutcome(panel, stored, false)
    else
      var w := Walk(s, Load(stored), now);
      WalkFacts(s, Load(stored), now);
      if w.threw then AlertsOutcome(Some(w.lines), stored, true)
      else AlertsOutcome(Some(w.lines), if writeOk then Save(w.loaded) else stored, false)
  }

  lemma {:induction false} AlertCountConcat(a: Snapshot, b: Snapshot)
    ensures AlertCount(a + b) == AlertCount(a) + AlertCount(b)
    ensures forall now :: CycleEvents(a + b, now) == CycleEvents(a, now) + CycleEvents(b, now)
  {
    if |a| == 0 {
      assert a + b == b;
    } else {
      assert (a + b)[0] == a[0];
      assert (a + b)[1..] == a[1..] + b;
      AlertCountConcat(a[1..], b);
    }
  }

  /** One cycle appends exactly Σ len(alertas) events. */
  lemma {:induction false} CycleEventsCount(s: Snapshot, now: string)
    ensures |CycleEvents(s, now)| == AlertCount(s)
  {
    if |s| > 0 {
      CycleEventsCount(s[1..], now);
    }
  }

  /** The j-th alert of the i-th vehicle lands right after the events of the vehicles before it:
      events are ordered by vehicle, then by alert, and carry the vehicle's id. */
  lemma CycleEventsOrder(s: Snapshot, now: string, i: nat, j: nat)
    requires i < |s| && j < |AlertsOf(s[i].1)|
    ensures AlertCount(s[..i]) + j < |CycleEvents(s, now)|
    ensures CycleEvents(s, now)[AlertCount(s[..i]) + j] == AlertEvent(s[i].0, AlertsOf(s[i].1)[j], now)
  {
    assert s == s[..i] + s[i..];
    AlertCountConcat(s[..i], s[i..]);
    CycleEventsCount(s[..i], now);
    var tail := s[i..];
    assert tail[0] == s[i];
    assert CycleEvents(tail, now) == VehicleEvents(s[i].0, AlertsOf(s[i].1), now) + CycleEvents(tail[1..], now);
  }

  /** Absent or corrupt history counts as empty, and the cycle still writes. */
  lemma CorruptHistoryStartsEmpty(panel: seq<AlertLine>, stored: StoredHistory, s: Snapshot,
                                  now: string)
    requires stored.NoHistory? || stored.Unparsable? || stored.FalsyDocument?
    requires NoNullEntries(s)
    ensures GenerateAlerts(Some(panel), stored, s, now, true).stored == EventArray(CycleEvents(s, now))
  {
  }

  /** No deduplication: two cycles with the same snapshot grow the history by 2·Σ len(alertas),
      keep the earlier history as a prefix, and leave the same panel. */
  lemma GenerateTwice(panel: seq<AlertLine>, es: seq<AlertEvent>, s: Snapshot, t1: string, t2: string)
    requires NoNullEntries(s)
    ensures var first := GenerateAlerts(Some(panel), EventArray(es), s, t1, true);
            var second := GenerateAlerts(first.panel, first.stored, s, t2, true);
            && second.stored.EventArray?
            && |second.stored.events| == |es| + 2 * AlertCount(s)
            && es <= first.stored.events <= second.stored.events
            && second.panel == first.panel
  {
    CycleEventsCount(s, t1);
    CycleEventsCount(s, t2);
  }
}

=== FILE: dashboard.dfy ===
/** The dashboard's poll tick (Safetrack/app.js `obtenerDatosBuses`): fetch, gate, then
    `actualizarMapa`, `mostrarDatosSensores` and `generarAlertas` in that order. */
module Dashboard {
  import opened Wrappers
  import opened Values
  import opened Telemetry
  import opened Markers
  import opened SensorPanel
  import opened AlertHistory
  import opened Session

  /** Everything a tick can touch: the session (user list and local storage), the map, and the two
      panels (`None` while the dashboard markup is not on the page). */
  datatype Client = Client(
    session: SessionState,
    mapView: MapView,
    sensorPanel: Option<seq<PanelEntry>>,
    alertPanel: Option<seq<AlertLine>>)

  function History(c: Client): StoredHistory
  {
    c.session.store.alertHistory
  }

  /** One tick. A rejected payload runs none of the three steps. Otherwise the map and the sensor
      panel are updated before `generarAlertas` runs, so a `TypeError` thrown there (and absorbed
      by the tick's `catch`) does not undo them. `now` is the clock reading of this tick and
      `writeOk` whether local storage accepts the write. */
  function Tick(c: Client, fetched: Fetched, now: string, writeOk: bool): (r: Client)
    ensures Accept(fetched).None? ==> r == c
    ensures r.session.users == c.session.users
    ensures r.session.store.currentUser == c.session.store.currentUser
    ensures Accept(fetched).Some? && c.mapView.Ready? ==>
      var s := Accept(fetched).value;
      r.mapView.Ready? && MarkerIds(r.mapView.layers) == set k | 0 <= k < |s| && HasValidGps(s[k].1) :: s[k].0
    ensures Accept(fetched).Some? ==> (c.sensorPanel.None? <==> r.sensorPanel.None?)
    ensures Accept(fetched).Some? && c.sensorPanel.Some? ==>
      |r.sensorPanel.value| == |Renderable(Accept(fetched).value)|
    ensures Load(History(c)).Events? ==>
      Load(History(r)).Events? && Load(History(c)).events <= Load(History(r)).events
    ensures Load(History(c)).NotAnArray? ==> History(r) == History(c)
  {
    match Accept(fetched)
    case None => c
    case Some(s) =>
      ReconcileMarkerIds(c.mapView, s);
      var a := GenerateAlerts(c.alertPanel, History(c), s, now, writeOk);
      var store := c.session.store.(alertHistory := a.stored);
      Client(c.session.(store := store), Reconcile(c.mapView, s), Render(c.sensorPanel, s), a.panel)
  }

  /** An accepted snapshot runs the three steps on the same snapshot. */
  lemma TickRunsAllThree(c: Client, s: Snapshot, now: string, writeOk: bool)
    requires |s| > 0
    ensures var r := Tick(c, Received(Object(s)), now, writeOk);
      var a := GenerateAlerts(c.alertPanel, History(c), s, now, writeOk);
      && r.mapView == Reconcile(c.mapView, s)
      && r.sensorPanel == Render(c.sensorPanel, s)
      && r.alertPanel == a.panel
      && History(r) == a.stored
  {
  }

  /** After a tick the i-th marker and the i-th sensor block describe the same vehicle. */
  lemma MarkersMatchPanel(c: Client, fetched: Fetched, now: string, writeOk: bool)
    requires Accept(fetched).Some? && c.mapView.Ready? && c.sensorPanel.Some?
    ensures var r := Tick(c, fetched, now, writeOk);
      var ms := MarkersOn(r.mapView.layers);
      && |ms| == |r.sensorPanel.value|
      && forall i :: 0 <= i < |ms| ==> ms[i].id == r.sensorPanel.value[i].id
  {
    var s := Accept(fetched).value;
    var rs := Renderable(s);
    RebuiltShape(c.mapView.layers, s);
    PinLayersShape(rs);
    EntriesFollowRenderable(s);
  }

  /** Clicking a marker shows exactly that vehicle in the sensor panel. */
  lemma ClickShowsOneVehicle(view: MapView, s: Snapshot, m: Marker, panel: seq<PanelEntry>)
    requires view.Ready? && m in MarkersOn(Reconcile(view, s).layers)
    ensures var shown := Render(Some(panel), m.selection);
      shown.Some? && |shown.value| == 1 && shown.value[0].id == m.id
  {
    var k :| 0 <= k < |s| && HasValidGps(s[k].1) && m == PinFor(s[k]);
    RenderSingle(panel, s[k]);
  }

  /** No deduplication across ticks: the same payload twice grows the history by 2·Σ len(alertas). */
  lemma TickTwice(c: Client, fetched: Fetched, t1: string, t2: string)
    requires Accept(fetched).Some? && NoNullEntries(Accept(fetched).value)
    requires c.alertPanel.Some? && History(c).EventArray?
    ensures var once := Tick(c, fetched, t1, true);
      var twice := Tick(once, fetched, t2, true);
      && History(twice).EventArray?
      && |History(twice).events| == |History(c).events| + 2 * AlertCount(Accept(fetched).value)
      && History(c).events <= History(once).events <= History(twice).events
  {
    GenerateTwice(c.alertPanel.value, History(c).events, Accept(fetched).value, t1, t2);
  }

  /** A client with the dashboard open, a tile layer, empty panels and the given history. */
  function OpenDashboard(st: SessionState): Client
  {
    Client(st, Ready([TileLayer("https://{s}.tile.openstreetmap.org/{z}/{x}/{y}.png")]), Some([]), Some([]))
  }

  function Located(lat: real, lon: real): Option<Gps>
  {
    Some(Gps(Some(Num(lat)), Some(Num(lon))))
  }

  /** One vehicle with position, fuel 80, temperature 22 and no alerts: one marker, one block,
      no new history event. */
  lemma ScenarioOneVehicle(st: SessionState, es: seq<AlertEvent>, now: string)
    requires st.store.alertHistory == EventArray(es)
    ensures var s := [("v1", Vehicle(VehicleState(Located(4.6, -74.1), Some(Num(80.0)), Some(Num(22.0)), [])))];
      var r := Tick(OpenDashboard(st), Received(Object(s)), now, true);
      && MarkersOn(r.mapView.layers) == [Marker("v1", Num(4.6), Num(-74.1), "Camión v1", s)]
      && r.sensorPanel == Some([PanelEntry("v1", Shown(Num(80.0)), Shown(Num(22.0)), Num(4.6), Num(-74.1))])
      && History(r) == EventArray(es)
  {
    var s := [("v1", Vehicle(VehicleState(Located(4.6, -74.1), Some(Num(80.0)), Some(Num(22.0)), [])))];
    var c := OpenDashboard(st);
    TickRunsAllThree(c, s, now, true);
    assert s[1..] == [];
    assert Renderable(s) == s;
    assert MarkersOn(Reconcile(c.mapView, s).layers) == [PinFor(s[0])] by {
      RebuiltShape(c.mapView.layers, s);
      PinLayersShape(s);
    }
    assert PopupLabel("v1") == "Camión v1";
    assert [s[0]] == s;
    assert PinFor(s[0]) == Marker("v1", Num(4.6), Num(-74.1), "Camión v1", s);
    assert Render(c.sensorPanel, s) == Some([EntryFor(s[0])]) by {
      RenderSingle([], s[0]);
      assert s == [s[0]];
    }
    assert GenerateAlerts(c.alertPanel, History(c), s, now, true).stored == EventArray(es) by {
      assert CycleEvents(s, now) == [];
      assert es + [] == es;
    }
  }

  /** One vehicle without gps and one alert: no marker, an empty panel, one event. */
  lemma ScenarioNoGps(st: SessionState, es: seq<AlertEvent>, now: string)
    requires st.store.alertHistory == EventArray(es)
    ensures var s := [("v1", Vehicle(VehicleState(None, None, None, ["overheat"])))];
      var r := Tick(OpenDashboard(st), Received(Object(s)), now, true);
      && MarkersOn(r.mapView.layers) == []
      && r.sensorPanel == Some([])
      && History(r) == EventArray(es + [AlertEvent("v1", "overheat", now)])
  {
    var s := [("v1", Vehicle(VehicleState(None, None, None, ["overheat"])))];
    var c := OpenDashboard(st);
    RebuiltShape(c.mapView.layers, s);
    RenderSingle([], s[0]);
    assert s[1..] == [];
    assert CycleEvents(s, now) == VehicleEvents("v1", ["overheat"], now) + [];
  }

  /** An empty object is rejected: nothing changes. */
  lemma ScenarioEmptyPayload(c: Client, now: string, writeOk: bool)
    ensures Tick(c, Received(Object([])), now, writeOk) == c
  {
  }

  /** Two vehicles, one without coordinates: exactly one marker and one block. */
  lemma ScenarioMixedGps(st: SessionState, es: seq<AlertEvent>, now: string)
    requires st.store.alertHistory == EventArray(es)
    ensures var s := [("v1", Vehicle(VehicleState(Located(4.6, -74.1), None, None, []))),
                      ("v2", Vehicle(VehicleState(Some(Gps(None, Some(Num(-74.0)))), None, None, [])))];
      var r := Tick(OpenDashboard(st), Received(Object(s)), now, true);
      && |MarkersOn(r.mapView.layers)| == 1
      && r.sensorPanel.Some? && |r.sensorPanel.value| == 1
  {
    var s := [("v1", Vehicle(VehicleState(Located(4.6, -74.1), None, None, []))),
              ("v2", Vehicle(VehicleState(Some(Gps(None, Some(Num(-74.0)))), None, None, [])))];
    assert s == [s[0]] + [s[1]];
    RenderableConcat([s[0]], [s[1]]);
    assert [s[0]][1..] == [] && [s[1]][1..] == [];
    assert Renderable([s[1]]) == [];
    assert Renderable([s[0]]) == [s[0]];
  }
}

=== FILE: fleet.dfy ===
/** The backend's truck state and its append-only files (Safetrack/app.py): threshold alerts,
    the alert log `alertas.json`, the route history `historial.json`, and fleet start-up. */
module Fleet {
  import opened Wrappers
  import opened Values

  /** The thresholds of `config.json`. */
  datatype Config = Config(gasolinaBaja: int, temperaturaAlta: int, temperaturaBaja: int)

  /** The thresholds written when `config.json` does not exist. */
  const DefaultConfig: Config := Config(10, 35, 15)

  datatype TruckGps = TruckGps(latitud: real, longitud: real, velocidad: int)

  datatype Truck = Truck(
    gasolina: int,
    temperatura: int,
    gps: TruckGps,
    alertas: seq<string>,
    recorrido: seq<Value>)

  /** The three threshold rules, in the order `actualizar_camion` checks them. */
  datatype Rule = FuelCritical | HighTemperature | LowTemperature

  /** One record of `alertas.json`: the rule stands for its message text (`Message`); the
      timestamp is the opaque clock reading. */
  datatype AlertRecord = AlertRecord(camionId: int, mensaje: Rule, timestamp: real)

  /** The server's state: trucks in memory, the alert log, and the route history as stored
      (JSON object keys are strings). */
  datatype Backend = Backend(
    camiones: map<int, Truck>,
    alertas: seq<AlertRecord>,
    historial: map<string, seq<Value>>)

  /** `camiones[camion_id]` on a missing id. */
  datatype LookupError = KeyError(camionId: int)

  /** The reply of `GET /sensores/<id>` once the truck table is consulted. */
  datatype TruckReply = Found(truck: Truck) | NotFound404

  /** The message text each rule writes. */
  function Message(rule: Rule): string
  {
    match rule
    case FuelCritical => "Nivel de gasolina crítico"
    case HighTemperature => "Temperatura alta"
    case LowTemperature => "Temperatura baja"
  }

  /** The order in which the rules are checked. */
  function Rank(rule: Rule): nat
  {
    match rule
    case FuelCritical => 0
    case HighTemperature => 1
    case LowTemperature => 2
  }

  /** Each rule writes its own text, so a record's rule determines the message stored in
      `alertas.json` and vice versa. */
  lemma MessagesDistinct(a: Rule, b: Rule)
    ensures Message(a) == Message(b) <==> a == b
  {
    if a != b {
      assert Message(a)[0] != Message(b)[0] || Message(a)[12] != Message(b)[12];
    }
  }

  /** The truck every id starts as. */
  const InitialTruck: Truck := Truck(50, 25, TruckGps(4.0, -74.0, 0), [], [])

  /** The messages the three threshold rules of `actualizar_camion` produce, in rule order. */
  function ThresholdAlerts(t: Truck, cfg: Config): (r: seq<Rule>)
    ensures FuelCritical in r <==> t.gasolina <= cfg.gasolinaBaja
    ensures HighTemperature in r <==> t.temperatura > cfg.temperaturaAlta
    ensures LowTemperature in r <==> t.temperatura < cfg.temperaturaBaja
    ensures forall i, j :: 0 <= i < j < |r| ==> Rank(r[i]) < Rank(r[j])
    ensures |r| <= 3
  {
    (if t.gasolina <= cfg.gasolinaBaja then [FuelCritical] else [])
    + (if t.temperatura > cfg.temperaturaAlta then [HighTemperature] else [])
    + (if t.temperatura < cfg.temperaturaBaja then [LowTemperature] else [])
  }

  /** With `temperatura_baja <= temperatura_alta` a truck is never both too hot and too cold. */
  lemma AtMostOneTemperatureAlert(t: Truck, cfg: Config)
    requires cfg.temperaturaBaja <= cfg.temperaturaAlta
    ensures !(HighTemperature in ThresholdAlerts(t, cfg) && LowTemperature in ThresholdAlerts(t, cfg))
  {
  }

  /** `generar_alerta`: one record is appended to the alert log; nothing before it changes. */
  function LogAlert(log: seq<AlertRecord>, camionId: int, mensaje: Rule, now: real): (r: seq<AlertRecord>)
    ensures |r| == |log| + 1
    ensures log <= r
    ensures r[|log|] == AlertRecord(camionId, mensaje, now)
  {
    log + [AlertRecord(camionId, mensaje, now)]
  }

  /** The records one truck's messages produce, in message order. */
  function Records(camionId: int, mensajes: seq<Rule>, now: real): (r: seq<AlertRecord>)
    ensures |r| == |mensajes|
  {
    seq(|mensajes|, k requires 0 <= k < |mensajes| => AlertRecord(camionId, mensajes[k], now))
  }

  /** Successive `generar_alerta` calls for one truck, one per message: the log is extended by
      exactly that truck's records, in message order. */
  function LogAlerts(log: seq<AlertRecord>, camionId: int, mensajes: seq<Rule>, now: real): (r: seq<AlertRecord>)
    ensures r == log + Records(camionId, mensajes, now)
    decreases |mensajes|
  {
    if |mensajes| == 0 then log
    else
      var next := LogAlert(log, camionId, mensajes[0], now);
      var r := LogAlerts(next, camionId, mensajes[1..], now);
      assert Records(camionId, mensajes, now) == [AlertRecord(camionId, mensajes[0], now)] + Records(camionId, mensajes[1..], now);
      r
  }

  /** `actualizar_camion(camion_id)`: a missing id raises `KeyError`. Otherwise the truck's own
      `alertas` is emptied, every other field and truck stays, and each rule that fires appends
      one record to the alert log. */
  function UpdateTruck(b: Backend, camionId: int, cfg: Config, now: real): (r: Result<Backend, LookupError>)
    ensures r.Failure? <==> camionId !in b.camiones
    ensures r.Failure? ==> r.error == KeyError(camionId)
    ensures r.Success? ==> r.value.camiones == b.camiones[camionId := b.camiones[camionId].(alertas := [])]
    ensures r.Success? ==> r.value.historial == b.historial
    ensures r.Success? ==>
      r.value.alertas == b.alertas + Records(camionId, ThresholdAlerts(b.camiones[camionId], cfg), now)
  {
    if camionId !in b.camiones then Failure(KeyError(camionId))
    else
      var camion := b.camiones[camionId];
      var cleared := camion.(alertas := []);
      Success(b.(camiones := b.camiones[camionId := cleared],
                 alertas := LogAlerts(b.alertas, camionId, ThresholdAlerts(camion, cfg), now)))
  }

  /** The records the start-up loop appends after `n` rounds: truck 1's, then truck 2's, up to
      truck `n`'s. */
  function InitLog(n: nat, msgs: seq<Rule>, now: real): seq<AlertRecord>
  {
    if n == 0 then [] else InitLog(n - 1, msgs, now) + Records(n, msgs, now)
  }

  /** After `n` rounds the log has grown by `n` times the initial truck's rules. */
  lemma {:induction false} InitLogLength(n: nat, msgs: seq<Rule>, now: real)
    ensures |InitLog(n, msgs, now)| == n * |msgs|
  {
    if n > 0 {
      InitLogLength(n - 1, msgs, now);
      assert n * |msgs| == (n - 1) * |msgs| + |msgs|;
    }
  }

  /** Every record of the first `n` rounds names one of trucks 1 to `n` and one of the rules. */
  lemma {:induction false} InitLogRecords(n: nat, msgs: seq<Rule>, now: real)
    ensures forall k :: 0 <= k < |InitLog(n, msgs, now)| ==>
      1 <= InitLog(n, msgs, now)[k].camionId <= n && InitLog(n, msgs, now)[k].mensaje in msgs
  {
    if n > 0 {
      InitLogRecords(n - 1, msgs, now);
      var prev := InitLog(n - 1, msgs, now);
      var recs := Records(n, msgs, now);
      var log := InitLog(n, msgs, now);
      assert log == prev + recs;
      forall k | 0 <= k < |log|
        ensures 1 <= log[k].camionId <= n && log[k].mensaje in msgs
      {
        if k < |prev| {
          assert log[k] == prev[k];
        } else {
          assert log[k] == recs[k - |prev|];
        }
      }
    }
  }

  /** The start-up records appended to an existing log: the log grows by `n` times the rules,
      every new record names one of trucks 1 to `n` and one of the rules, and nothing is added
      when no rule fires. */
  lemma InitLogAppended(log: seq<AlertRecord>, n: nat, msgs: seq<Rule>, now: real)
    ensures var r := log + InitLog(n, msgs, now);
      && |r| == |log| + n * |msgs|
      && (forall k :: |log| <= k < |r| ==> 1 <= r[k].camionId <= n && r[k].mensaje in msgs)
      && (msgs == [] ==> r == log)
  {
    var added := InitLog(n, msgs, now);
    var r := log + added;
    InitLogLength(n, msgs, now);
    InitLogRecords(n, msgs, now);
    forall k | |log| <= k < |r|
      ensures 1 <= r[k].camionId <= n && r[k].mensaje in msgs
    {
      assert r[k] == added[k - |log|];
    }
    if msgs == [] {
      assert added == [];
    }
  }

  /** `inicializar_camiones()`: the truck table is cleared, then trucks 1 to 5 are created with the
      initial readings and updated once each, in id order. The alert log grows by truck 1's
      records, then truck 2's, up to truck 5's; the route history is untouched. */
  method InitializeTrucks(b: Backend, cfg: Config, now: real) returns (r: Backend)
    ensures r.camiones.Keys == {1, 2, 3, 4, 5}
    ensures forall id :: id in r.camiones ==> r.camiones[id] == InitialTruck
    ensures r.historial == b.historial
    ensures r.alertas == b.alertas + InitLog(5, ThresholdAlerts(InitialTruck, cfg), now)
    ensures |r.alertas| == |b.alertas| + 5 * |ThresholdAlerts(InitialTruck, cfg)|
    ensures forall k :: |b.alertas| <= k < |r.alertas| ==>
      1 <= r.alertas[k].camionId <= 5 && r.alertas[k].mensaje in ThresholdAlerts(InitialTruck, cfg)
    ensures ThresholdAlerts(InitialTruck, cfg) == [] ==> r.alertas == b.alertas
  {
    r := RunInitRounds(b, cfg, now);
    InitialTableFive();
    InitLogAppended(b.alertas, 5, ThresholdAlerts(InitialTruck, cfg), now);
  }

  /** The loop of `inicializar_camiones()`: five rounds over a cleared table. */
  method RunInitRounds(b: Backend, cfg: Config, now: real) returns (r: Backend)
    ensures r.camiones == InitialTable(5)
    ensures r.historial == b.historial
    ensures r.alertas == b.alertas + InitLog(5, ThresholdAlerts(InitialTruck, cfg), now)
  {
    var msgs := ThresholdAlerts(InitialTruck, cfg);
    r := b.(camiones := map[]);
    var id := 1;
    while id < 6
      invariant 1 <= id <= 6
      invariant r.camiones == InitialTable(id - 1)
      invariant r.historial == b.historial
      invariant r.alertas == b.alertas + InitLog(id - 1, msgs, now)
    {
      InitStep(r, id, cfg, now);
      r := InitRound(r, id, cfg, now);
      id := id + 1;
    }
  }

  /** The truck table after `n` rounds of the start-up loop: trucks 1 to `n` in the initial state. */
  function InitialTable(n: nat): map<int, Truck>
  {
    if n == 0 then map[] else InitialTable(n - 1)[n := InitialTruck]
  }

  /** After the five rounds the table holds exactly trucks 1 to 5, each in the initial state. */
  lemma InitialTableFive()
    ensures InitialTable(5).Keys == {1, 2, 3, 4, 5}
    ensures forall i :: i in InitialTable(5) ==> InitialTable(5)[i] == InitialTruck
  {
    InitialTableShape(5);
    forall i ensures i in InitialTable(5).Keys <==> i in {1, 2, 3, 4, 5} {
    }
  }

  /** After `n` rounds exactly trucks 1 to `n` exist, each in the initial state. */
  lemma {:induction false} InitialTableShape(n: nat)
    ensures forall i :: i in InitialTable(n) <==> 1 <= i <= n
    ensures forall i :: i in InitialTable(n) ==> InitialTable(n)[i] == InitialTruck
  {
    if n > 0 {
      InitialTableShape(n - 1);
    }
  }

  /** One round of the start-up loop: truck `id` is created with the initial readings, then
      updated (the lookup cannot fail, since the truck was just added). */
  function InitRound(r: Backend, id: int, cfg: Config, now: real): Backend
  {
    match UpdateTruck(r.(camiones := r.camiones[id := InitialTruck]), id, cfg, now)
    case Success(next) => next
    case Failure(_) => r
  }

  /** One round of the start-up loop adds truck `id` in its initial state and appends exactly
      truck `id`'s records; the route history is untouched. */
  lemma InitStep(r: Backend, id: nat, cfg: Config, now: real)
    requires 1 <= id
    ensures InitRound(r, id, cfg, now) ==
      r.(camiones := r.camiones[id := InitialTruck],
         alertas := r.alertas + Records(id, ThresholdAlerts(InitialTruck, cfg), now))
  {
  }

  /** Under the default thresholds the initial trucks raise no alert. */
  lemma DefaultConfigIsQuiet()
    ensures ThresholdAlerts(InitialTruck, DefaultConfig) == []
  {
  }

  /** The lookup of `GET /sensores/<id>`: an unknown id is a 404. */
  function TruckById(camiones: map<int, Truck>, camionId: int): (r: TruckReply)
    ensures r.NotFound404? <==> camionId !in camiones
    ensures r.Found? ==> camiones[camionId] == r.truck
  {
    if camionId in camiones then Found(camiones[camionId]) else NotFound404
  }

  /** `generar_recorrido` on a key of the stored history: an unseen key starts an empty list, the
      point is appended to that key's list only. */
  function RecordRoute(h: map<string, seq<Value>>, key: string, d: Value): (r: map<string, seq<Value>>)
    ensures r.Keys == h.Keys + {key}
    ensures r[key] == (if key in h then h[key] else []) + [d]
    ensures forall k :: k in h && k != key ==> r[k] == h[k]
  {
    var list := if key in h then h[key] else [];
    h[key := list + [d]]
  }

  function Digit(d: nat): char
    requires d < 10
  {
    "0123456789"[d]
  }

  function NatText(n: nat): string
  {
    if n < 10 then [Digit(n)] else NatText(n / 10) + [Digit(n % 10)]
  }

  /** The decimal text `json.dump` writes for an int dict key. */
  function DecimalText(n: int): string
  {
    if n < 0 then "-" + NatText(-n) else NatText(n)
  }

  /** `generar_recorrido(camion_id, d)` with an int id, as written. The loaded history has only
      string keys, so `camion_id not in historial` always holds and a fresh list `[d]` is put under
      the int key. `json.dump` writes it after the string keys under the same decimal text, and
      `json.load` keeps the later of two equal keys: the stored list is replaced, not extended. */
  function RecordRouteAsWritten(h: map<string, seq<Value>>, camionId: int, d: Value): (r: map<string, seq<Value>>)
    ensures r.Keys == h.Keys + {DecimalText(camionId)}
    ensures r[DecimalText(camionId)] == [d]
    ensures forall k :: k in h && k != DecimalText(camionId) ==> r[k] == h[k]
  {
    h[DecimalText(camionId) := [] + [d]]
  }

  /** The corrected `generar_recorrido(camion_id, d)`: the id is turned into the key the file
      uses before the lookup, so points accumulate. */
  function RecordRouteById(h: map<string, seq<Value>>, camionId: int, d: Value): (r: map<string, seq<Value>>)
    ensures r.Keys == h.Keys + {DecimalText(camionId)}
    ensures r[DecimalText(camionId)] == (if DecimalText(camionId) in h then h[DecimalText(camionId)] else []) + [d]
    ensures forall k :: k in h && k != DecimalText(camionId) ==> r[k] == h[k]
  {
    RecordRoute(h, DecimalText(camionId), d)
  }

  /** Two points recorded for truck 1 as written: the first is lost. */
  lemma RecordRouteAsWrittenLosesPoints(d1: Value, d2: Value)
    ensures RecordRouteAsWritten(RecordRouteAsWritten(map[], 1, d1), 1, d2)["1"] == [d2]
  {
    assert DecimalText(1) == "1";
  }

  /** Two points recorded for truck 1 with the corrected lookup: both are kept, in order. */
  lemma RecordRouteByIdKeepsPoints(d1: Value, d2: Value)
    ensures RecordRouteById(RecordRouteById(map[], 1, d1), 1, d2)["1"] == [d1, d2]
  {
    assert DecimalText(1) == "1";
  }
}

=== FILE: markers.dfy ===
/** The map's marker layer and its per-tick reconciliation (Safetrack/app.js `actualizarMapa`).
    Every marker on the map is removed, then one marker is added per vehicle with valid gps. */
module Markers {
  import opened Wrappers
  import opened Values
  import opened Telemetry

  /** A truck marker: where it stands, its popup text, and the single-entry snapshot its click
      handler hands to the sensor panel. */
  datatype Marker = Marker(id: string, latitud: Value, longitud: Value, popup: string, selection: Snapshot)

  /** A map layer: the base tile layer, or a marker. */
  datatype Layer = TileLayer(url: string) | Pin(marker: Marker)

  /** `map` before `inicializarMapa` has run, or a map with its layers in insertion order. */
  datatype MapView = Uninitialised | Ready(layers: seq<Layer>)

  function PopupLabel(id: string): string
  {
    "Camión " + id
  }

  /** The marker added for an entry with valid gps. */
  function PinFor(p: (string, Entry)): Marker
    requires HasValidGps(p.1)
  {
    var g := p.1.state.gps.value;
    Marker(p.0, g.latitud.value, g.longitud.value, PopupLabel(p.0), [p])
  }

  /** The markers on a map, in layer order. */
  function MarkersOn(layers: seq<Layer>): (r: seq<Marker>)
    ensures |r| <= |layers|
    ensures forall m :: m in r <==> Pin(m) in layers
  {
    if |layers| == 0 then []
    else (if layers[0].Pin? then [layers[0].marker] else []) + MarkersOn(layers[1..])
  }

  /** The layers that are not markers, in layer order. */
  function BaseLayers(layers: seq<Layer>): (r: seq<Layer>)
    ensures |r| <= |layers|
    ensures forall l :: l in r <==> l in layers && !l.Pin?
  {
    if |layers| == 0 then []
    else (if layers[0].Pin? then [] else [layers[0]]) + BaseLayers(layers[1..])
  }

  /** The ids of the markers on a map. */
  function MarkerIds(layers: seq<Layer>): set<string>
  {
    set m | m in MarkersOn(layers) :: m.id
  }

  /** One marker layer per entry, in order. */
  function PinLayers(rs: Snapshot): (r: seq<Layer>)
    requires forall p :: p in rs ==> HasValidGps(p.1)
    ensures |r| == |rs|
  {
    if |rs| == 0 then [] else [Pin(PinFor(rs[0]))] + PinLayers(rs[1..])
  }

  lemma {:induction false} MarkersOnConcat(a: seq<Layer>, b: seq<Layer>)
    ensures MarkersOn(a + b) == MarkersOn(a) + MarkersOn(b)
  {
    if |a| == 0 {
      assert a + b == b;
    } else {
      assert (a + b)[1..] == a[1..] + b;
      MarkersOnConcat(a[1..], b);
    }
  }

  lemma {:induction false} BaseLayersConcat(a: seq<Layer>, b: seq<Layer>)
    ensures BaseLayers(a + b) == BaseLayers(a) + BaseLayers(b)
  {
    if |a| == 0 {
      assert a + b == b;
    } else {
      assert (a + b)[1..] == a[1..] + b;
      BaseLayersConcat(a[1..], b);
    }
  }

  lemma {:induction false} PinLayersShape(rs: Snapshot)
    requires forall p :: p in rs ==> HasValidGps(p.1)
    ensures BaseLayers(PinLayers(rs)) == []
    ensures |MarkersOn(PinLayers(rs))| == |rs|
    ensures forall i :: 0 <= i < |rs| ==> MarkersOn(PinLayers(rs))[i] == PinFor(rs[i])
  {
    if |rs| > 0 {
      assert forall p :: p in rs[1..] ==> p in rs;
      PinLayersShape(rs[1..]);
      var ls := PinLayers(rs);
      assert ls == [Pin(PinFor(rs[0]))] + PinLayers(rs[1..]);
      assert ls[1..] == PinLayers(rs[1..]);
    }
  }

  /** `actualizarMapa(data)`: a no-op before the map exists; otherwise every marker is removed,
      the tile layer is kept, and a fresh marker is added for each entry with valid gps. */
  function Reconcile(view: MapView, s: Snapshot): (r: MapView)
    ensures view.Uninitialised? ==> r == view
    ensures view.Ready? ==> r.Ready? && BaseLayers(r.layers) == BaseLayers(view.layers)
    ensures view.Ready? ==> |MarkersOn(r.layers)| == |Renderable(s)|
    ensures view.Ready? ==> forall m :: m in MarkersOn(r.layers) <==>
      exists k :: 0 <= k < |s| && HasValidGps(s[k].1) && m == PinFor(s[k])
  {
    match view
    case Uninitialised => view
    case Ready(layers) =>
      RebuiltShape(layers, s);
      Ready(Rebuilt(layers, s))
  }

  /** The layers after a rebuild: the non-marker layers, then one marker per renderable entry. */
  function Rebuilt(layers: seq<Layer>, s: Snapshot): seq<Layer>
  {
    BaseLayers(layers) + PinLayers(Renderable(s))
  }

  lemma RebuiltShape(layers: seq<Layer>, s: Snapshot)
    ensures BaseLayers(Rebuilt(layers, s)) == BaseLayers(layers)
    ensures MarkersOn(Rebuilt(layers, s)) == MarkersOn(PinLayers(Renderable(s)))
    ensures |MarkersOn(Rebuilt(layers, s))| == |Renderable(s)|
    ensures forall m :: m in MarkersOn(Rebuilt(layers, s)) <==>
      exists k :: 0 <= k < |s| && HasValidGps(s[k].1) && m == PinFor(s[k])
  {
    var rs := Renderable(s);
    var base := BaseLayers(layers);
    var pins := PinLayers(rs);
    BaseLayersConcat(base, pins);
    MarkersOnConcat(base, pins);
    PinLayersShape(rs);
    BaseIsFixed(layers);
    MarkersOfBase(layers);
    var ms := MarkersOn(pins);
    forall m | m in ms
      ensures exists k :: 0 <= k < |s| && HasValidGps(s[k].1) && m == PinFor(s[k])
    {
      var i :| 0 <= i < |ms| && ms[i] == m;
      assert rs[i] in s;
    }
    forall k | 0 <= k < |s| && HasValidGps(s[k].1) ensures PinFor(s[k]) in ms {
      assert s[k] in rs;
      var i :| 0 <= i < |rs| && rs[i] == s[k];
      assert ms[i] == PinFor(s[k]);
    }
  }

  lemma {:induction false} BaseIsFixed(layers: seq<Layer>)
    ensures BaseLayers(BaseLayers(layers)) == BaseLayers(layers)
  {
    if |layers| > 0 {
      BaseIsFixed(layers[1..]);
      var rest := BaseLayers(layers[1..]);
      if layers[0].Pin? {
        assert BaseLayers(layers) == rest;
      } else {
        assert BaseLayers(layers) == [layers[0]] + rest;
        assert ([layers[0]] + rest)[1..] == rest;
      }
    }
  }

  lemma {:induction false} MarkersOfBase(layers: seq<Layer>)
    ensures MarkersOn(BaseLayers(layers)) == []
  {
    if |layers| > 0 {
      MarkersOfBase(layers[1..]);
      var rest := BaseLayers(layers[1..]);
      if !layers[0].Pin? {
        var b := [layers[0]] + rest;
        assert BaseLayers(layers) == b;
        assert b[0] == layers[0] && b[1..] == rest;
        assert MarkersOn(b) == MarkersOn(rest);
      } else {
        assert BaseLayers(layers) == [] + rest == rest;
      }
    }
  }

  /** The marker set after a tick is exactly the ids of the snapshot with valid gps. */
  lemma ReconcileMarkerIds(view: MapView, s: Snapshot)
    ensures view.Ready? ==> (MarkerIds(Reconcile(view, s).layers) ==
                             set k | 0 <= k < |s| && HasValidGps(s[k].1) :: s[k].0)
  {
    if view.Uninitialised? { return; }
    var r := Reconcile(view, s);
    var ms := MarkersOn(r.layers);
    forall id | id in MarkerIds(r.layers)
      ensures id in set k | 0 <= k < |s| && HasValidGps(s[k].1) :: s[k].0
    {
      var m :| m in ms && m.id == id;
      var k :| 0 <= k < |s| && HasValidGps(s[k].1) && m == PinFor(s[k]);
    }
    forall k | 0 <= k < |s| && HasValidGps(s[k].1) ensures s[k].0 in MarkerIds(r.layers) {
      assert PinFor(s[k]) in ms;
    }
  }

  /** A snapshot with distinct keys yields exactly one marker per id. */
  lemma ReconcileOneMarkerPerId(view: MapView, s: Snapshot)
    requires view.Ready? && DistinctIds(s)
    ensures var ms := MarkersOn(Reconcile(view, s).layers);
      forall i, j :: 0 <= i < j < |ms| ==> ms[i].id != ms[j].id
  {
    var rs := Renderable(s);
    RenderableDistinct(s);
    var base := BaseLayers(view.layers);
    var pins := PinLayers(rs);
    MarkersOnConcat(base, pins);
    MarkersOfBase(view.layers);
    PinLayersShape(rs);
    var ms := MarkersOn(Reconcile(view, s).layers);
    assert ms == MarkersOn(pins);
    forall i, j | 0 <= i < j < |ms| ensures ms[i].id != ms[j].id {
      assert ms[i].id == rs[i].0 && ms[j].id == rs[j].0;
    }
  }

  /** Re-running a tick with the same snapshot changes nothing further. */
  lemma ReconcileIdempotent(view: MapView, s: Snapshot)
    ensures Reconcile(Reconcile(view, s), s) == Reconcile(view, s)
  {
    if view.Ready? {
      var rs := Renderable(s);
      var base := BaseLayers(view.layers);
      var pins := PinLayers(rs);
      BaseLayersConcat(base, pins);
      PinLayersShape(rs);
      BaseIsFixed(view.layers);
      assert BaseLayers(base + pins) == base;
    }
  }

  /** A vehicle at latitude 0 and longitude 0 still gets its marker: only `null` is rejected. */
  lemma ZeroCoordinateIsPlotted(view: MapView, s: Snapshot, k: nat)
    requires view.Ready? && k < |s| && s[k].1.Vehicle? && s[k].1.state.gps.Some?
    requires s[k].1.state.gps.value == Gps(Some(Num(0.0)), Some(Num(0.0)))
    ensures s[k].0 in MarkerIds(Reconcile(view, s).layers)
  {
    ReconcileMarkerIds(view, s);
  }
}

=== FILE: password_reset.dfy ===
/** The backend's password reset (Safetrack/app.py `update_password`): a recovery code selects a
    user of `auth.json` whose password is replaced. */
module PasswordReset {
  import opened Wrappers
  import opened Seqs
  import opened Accounts
  import Session

  /** The JSON body's `recoveryCode` and `newPassword`; `None` when the key is missing. */
  datatype ResetRequest = ResetRequest(recoveryCode: Option<string>, newPassword: Option<string>)

  datatype Status = Ok200 | BadRequest400 | NotFound404 | ServerError500

  /** The status code and the user list as `auth.json` holds it afterwards. */
  datatype ResetResponse = ResetResponse(status: Status, users: seq<User>)

  /** A field Python treats as true: present and not the empty string. */
  predicate Given(x: Option<string>)
  {
    x.Some? && x.value != ""
  }

  /** Where the search `next(u for u in auth_data if u['recoveryCode'] == code)` stops: at a
      matching user, or at a user without the key, which raises `KeyError`. */
  predicate Stops(u: User, code: string)
  {
    u.recoveryCode.None? || u.recoveryCode == Some(code)
  }

  predicate HasCode(u: User, code: string)
  {
    u.recoveryCode == Some(code)
  }

  /** `i` is the user the search returns: it has the code and every user before it has a
      different code. */
  predicate FirstWithCode(users: seq<User>, code: string, i: int)
  {
    0 <= i < |users| && HasCode(users[i], code) &&
    forall k :: 0 <= k < i ==> users[k].recoveryCode.Some? && users[k].recoveryCode.value != code
  }

  /** `POST /update`. Missing or empty fields give 400; a user without a recovery code met before
      any match raises `KeyError`, reported as 500; no user with the code gives 404; otherwise
      only the first user with the code gets the new password. Only a 200 rewrites the file. */
  function UpdatePassword(users: seq<User>, req: ResetRequest): (r: ResetResponse)
    ensures r.status == BadRequest400 <==> !Given(req.recoveryCode) || !Given(req.newPassword)
    ensures r.status != Ok200 ==> r.users == users
    ensures r.status == NotFound404 <==> (
      && Given(req.recoveryCode) && Given(req.newPassword)
      && forall i :: 0 <= i < |users| ==>
           users[i].recoveryCode.Some? && users[i].recoveryCode.value != req.recoveryCode.value)
    ensures r.status == ServerError500 <==> (
      && Given(req.recoveryCode) && Given(req.newPassword)
      && exists i :: 0 <= i < |users| && users[i].recoveryCode.None? &&
           forall k :: 0 <= k < i ==> !HasCode(users[k], req.recoveryCode.value))
    ensures r.status == Ok200 ==> (
      && Given(req.recoveryCode) && Given(req.newPassword)
      && exists i :: FirstWithCode(users, req.recoveryCode.value, i) &&
           r.users == users[i := users[i].(pwd := req.newPassword.value)])
  {
    if !Given(req.recoveryCode) || !Given(req.newPassword) then ResetResponse(BadRequest400, users)
    else
      var code := req.recoveryCode.value;
      match FindFirst(users, u => Stops(u, code))
      case None => ResetResponse(NotFound404, users)
      case Some(i) =>
        if users[i].recoveryCode.None? then ResetResponse(ServerError500, users)
        else ResetResponse(Ok200, users[i := users[i].(pwd := req.newPassword.value)])
  }

  /** A reset with a code some user holds, and every user carrying a code, succeeds. */
  lemma ResetSucceedsWithKnownCode(users: seq<User>, req: ResetRequest, j: nat)
    requires Given(req.recoveryCode) && Given(req.newPassword)
    requires forall i :: 0 <= i < |users| ==> users[i].recoveryCode.Some?
    requires j < |users| && HasCode(users[j], req.recoveryCode.value)
    ensures UpdatePassword(users, req).status == Ok200
  {
  }

  /** After a successful reset the user can log in on the dashboard with the new password. */
  lemma ResetThenLogin(users: seq<User>, req: ResetRequest, store: Session.Store)
    requires UpdatePassword(users, req).status == Ok200
    ensures exists i :: (
      && 0 <= i < |users| && HasCode(users[i], req.recoveryCode.value)
      && Session.ValidateLogin(Session.SessionState(UpdatePassword(users, req).users, store),
                               users[i].usr, req.newPassword.value).accepted)
  {
    var r := UpdatePassword(users, req);
    var i :| FirstWithCode(users, req.recoveryCode.value, i) &&
             r.users == users[i := users[i].(pwd := req.newPassword.value)];
    assert Session.Credentials(r.users[i], users[i].usr, req.newPassword.value);
  }
}

=== FILE: sensor_panel.dfy ===
/** The vehicle data panel `datosCamion` (Safetrack/app.js `mostrarDatosSensores`). It is cleared,
    then one block is appended per vehicle with valid gps, in key order. */
module SensorPanel {
  import opened Wrappers
  import opened Values
  import opened Telemetry

  /** What the panel prints for fuel or temperature: the value, or the placeholder "Desconocida". */
  datatype Reading = Shown(v: Value) | Desconocida

  /** One vehicle block: id, fuel, temperature and the coordinates. */
  datatype PanelEntry = PanelEntry(
    id: string,
    gasolina: Reading,
    temperatura: Reading,
    latitud: Value,
    longitud: Value)

  /** `${x || "Desconocida"}`: a missing, null or falsy reading (0 included) shows the placeholder. */
  function Display(x: Option<Value>): (r: Reading)
    ensures r == Desconocida <==> x.None? || Falsy(x.value)
    ensures r.Shown? ==> x == Some(r.v) && !Falsy(r.v)
  {
    if x.None? || Falsy(x.value) then Desconocida else Shown(x.value)
  }

  /** The block shown for an entry with valid gps. */
  function EntryFor(p: (string, Entry)): PanelEntry
    requires HasValidGps(p.1)
  {
    var st := p.1.state;
    PanelEntry(p.0, Display(st.gasolina), Display(st.temperatura),
               st.gps.value.latitud.value, st.gps.value.longitud.value)
  }

  /** The blocks appended while walking the snapshot; entries without valid gps are skipped. */
  function Entries(s: Snapshot): seq<PanelEntry>
  {
    if |s| == 0 then []
    else (if HasValidGps(s[0].1) then [EntryFor(s[0])] else []) + Entries(s[1..])
  }

  /** A block is shown iff it is the block of some entry with valid gps. */
  lemma EntriesMembership(s: Snapshot)
    ensures |Entries(s)| == |Renderable(s)|
    ensures forall e :: e in Entries(s) <==>
      exists k :: 0 <= k < |s| && HasValidGps(s[k].1) && e == EntryFor(s[k])
  {
    EntriesFollowRenderable(s);
    var es := Entries(s);
    var rs := Renderable(s);
    forall e | e in es ensures exists k :: 0 <= k < |s| && HasValidGps(s[k].1) && e == EntryFor(s[k]) {
      var i :| 0 <= i < |es| && es[i] == e;
      assert rs[i] in s;
    }
    forall k | 0 <= k < |s| && HasValidGps(s[k].1) ensures EntryFor(s[k]) in es {
      assert s[k] in rs;
      var i :| 0 <= i < |rs| && rs[i] == s[k];
      assert es[i] == EntryFor(s[k]);
    }
  }

  /** `mostrarDatosSensores(data)`: nothing happens when the panel is not on the page; otherwise
      its previous contents are discarded and replaced by the blocks of `s`. */
  function Render(panel: Option<seq<PanelEntry>>, s: Snapshot): (r: Option<seq<PanelEntry>>)
    ensures panel.None? <==> r.None?
    ensures r.Some? ==> |r.value| == |Renderable(s)|
    ensures r.Some? ==> forall e :: e in r.value <==>
      exists k :: 0 <= k < |s| && HasValidGps(s[k].1) && e == EntryFor(s[k])
  {
    EntriesMembership(s);
    if panel.None? then None else Some(Entries(s))
  }

  /** The blocks of `a + b` are the blocks of `a` followed by those of `b`: key order is kept. */
  lemma {:induction false} EntriesConcat(a: Snapshot, b: Snapshot)
    ensures Entries(a + b) == Entries(a) + Entries(b)
  {
    if |a| == 0 {
      assert a + b == b;
    } else {
      var ab := a + b;
      assert ab[0] == a[0];
      assert ab[1..] == a[1..] + b;
      EntriesConcat(a[1..], b);
    }
  }

  /** The i-th block belongs to the i-th renderable entry. */
  lemma {:induction false} EntriesFollowRenderable(s: Snapshot)
    ensures |Entries(s)| == |Renderable(s)|
    ensures forall i :: 0 <= i < |Entries(s)| ==>
      HasValidGps(Renderable(s)[i].1) && Entries(s)[i] == EntryFor(Renderable(s)[i])
  {
    if |s| > 0 {
      EntriesFollowRenderable(s[1..]);
      var rs := Renderable(s);
      var rt := Renderable(s[1..]);
      if HasValidGps(s[0].1) {
        assert rs == [s[0]] + rt;
        assert Entries(s) == [EntryFor(s[0])] + Entries(s[1..]);
      } else {
        assert rs == [] + rt;
      }
    }
  }

  /** Rendering the same snapshot twice gives the panel of rendering it once, whatever the
      panel showed before. */
  lemma RenderIdempotent(panel: Option<seq<PanelEntry>>, s: Snapshot)
    ensures Render(Render(panel, s), s) == Render(panel, s)
  {
  }

  /** A single-entry snapshot (a marker click) shows exactly that vehicle when its gps is valid,
      and an empty panel otherwise. */
  lemma {:induction false} RenderSingle(panel: seq<PanelEntry>, p: (string, Entry))
    ensures HasValidGps(p.1) ==> Render(Some(panel), [p]) == Some([EntryFor(p)])
    ensures !HasValidGps(p.1) ==> Render(Some(panel), [p]) == Some([])
  {
    assert [p][1..] == [];
    assert Entries([p][1..]) == [];
    if HasValidGps(p.1) {
      assert Entries([p]) == [EntryFor([p][0])] + Entries([p][1..]);
      assert [EntryFor(p)] + [] == [EntryFor(p)];
    }
  }
}

=== FILE: seqs.dfy ===
/** First-match search, the shape of JavaScript's `Array.prototype.find` and Python's
    `next((u for u in xs if p(u)), None)`. */
module Seqs {
  import opened Wrappers

  /** The index of the first element of `s[from..]` satisfying `p`, if any. */
  function FindFrom<T>(s: seq<T>, p: T -> bool, from: nat): (r: Option<nat>)
    requires from <= |s|
    ensures r.Some? ==> from <= r.value < |s| && p(s[r.value])
    ensures r.Some? ==> forall j :: from <= j < r.value ==> !p(s[j])
    ensures r.None? ==> forall j :: from <= j < |s| ==> !p(s[j])
    decreases |s| - from
  {
    if from == |s| then None
    else if p(s[from]) then Some(from)
    else FindFrom(s, p, from + 1)
  }

  /** The index of the first element of `s` satisfying `p`, if any. */
  function FindFirst<T>(s: seq<T>, p: T -> bool): (r: Option<nat>)
    ensures r.Some? ==> r.value < |s| && p(s[r.value])
    ensures r.Some? ==> forall j :: 0 <= j < r.value ==> !p(s[j])
    ensures r.None? ==> forall j :: 0 <= j < |s| ==> !p(s[j])
  {
    FindFrom(s, p, 0)
  }
}

=== FILE: session.dfy ===
/** The dashboard's login session (Safetrack/app.js `saveSession`, `getSession`, `validateLogin`,
    `logout`, `redirectIfAuthenticated`): the in-memory user list plus the "currentUser" slot of
    local storage. */
module Session {
  import opened Wrappers
  import opened Seqs
  import opened Accounts
  import opened AlertHistory

  /** The browser's local storage: the session slot and the alert history. */
  datatype Store = Store(currentUser: Option<string>, alertHistory: StoredHistory)

  /** The user list and the store, as seen by the session functions. */
  datatype SessionState = SessionState(users: seq<User>, store: Store)

  datatype LoginOutcome = LoginOutcome(accepted: bool, state: SessionState)

  /** `localStorage.setItem("currentUser", username)`: only the session slot changes. */
  function SaveSession(st: Store, username: string): (r: Store)
    ensures GetSession(r) == Some(username)
    ensures r.alertHistory == st.alertHistory
  {
    st.(currentUser := Some(username))
  }

  /** `localStorage.getItem("currentUser")`. */
  function GetSession(st: Store): Option<string>
  {
    st.currentUser
  }

  /** A session value JavaScript treats as true: present and not the empty string. */
  predicate Truthy(x: Option<string>)
  {
    x.Some? && x.value != ""
  }

  predicate Credentials(u: User, username: string, password: string)
  {
    u.usr == username && u.pwd == password
  }

  predicate Named(u: User, username: string)
  {
    u.usr == username
  }

  /** `i` is the first user whose name is `username` (what `auth.find` by name returns). */
  predicate FirstNamed(users: seq<User>, username: string, i: int)
  {
    0 <= i < |users| && Named(users[i], username) &&
    forall k :: 0 <= k < i ==> !Named(users[k], username)
  }

  /** `validateLogin(username, password)`: succeeds iff some user has these credentials; then the
      first such user becomes active and the session records the name. A failure changes nothing. */
  function ValidateLogin(st: SessionState, username: string, password: string): (r: LoginOutcome)
    ensures r.accepted <==> exists i :: 0 <= i < |st.users| && Credentials(st.users[i], username, password)
    ensures !r.accepted ==> r.state == st
    ensures r.accepted ==> r.state.store == st.store.(currentUser := Some(username))
    ensures r.accepted ==> exists i :: (
      && 0 <= i < |st.users| && Credentials(st.users[i], username, password)
      && (forall k :: 0 <= k < i ==> !Credentials(st.users[k], username, password))
      && r.state.users == st.users[i := st.users[i].(status := 1)])
  {
    match FindFirst(st.users, u => Credentials(u, username, password))
    case None => LoginOutcome(false, st)
    case Some(i) =>
      var users := st.users[i := st.users[i].(status := 1)];
      LoginOutcome(true, SessionState(users, SaveSession(st.store, username)))
  }

  /** `logout()` (without the page reload): with a truthy session, the first user of that name (if
      any) becomes inactive and the slot is removed; otherwise nothing changes. */
  function Logout(st: SessionState): (r: SessionState)
    ensures !Truthy(st.store.currentUser) ==> r == st
    ensures Truthy(st.store.currentUser) ==> r.store == st.store.(currentUser := None)
    ensures Truthy(st.store.currentUser) ==> |r.users| == |st.users|
    ensures Truthy(st.store.currentUser) ==> forall j :: 0 <= j < |st.users| ==> (
      r.users[j] == if FirstNamed(st.users, st.store.currentUser.value, j)
                    then st.users[j].(status := 0) else st.users[j])
  {
    var current := GetSession(st.store);
    if !Truthy(current) then st
    else
      var users := match FindFirst(st.users, u => Named(u, current.value))
        case None => st.users
        case Some(i) => st.users[i := st.users[i].(status := 0)];
      SessionState(users, st.store.(currentUser := None))
  }

  /** `redirectIfAuthenticated()`: the dashboard opens iff the session is truthy and the first user
      of that name is active (`status === 1`). */
  function RedirectIfAuthenticated(st: SessionState): (r: bool)
    ensures r <==> (
      && Truthy(st.store.currentUser)
      && exists i :: FirstNamed(st.users, st.store.currentUser.value, i) && st.users[i].status == 1)
  {
    var current := GetSession(st.store);
    if !Truthy(current) then false
    else
      match FindFirst(st.users, u => Named(u, current.value))
      case None => false
      case Some(i) => st.users[i].status == 1
  }

  /** What a page load leaves: the session state and whether the dashboard opened. */
  datatype PageLoad = PageLoad(state: SessionState, dashboard: bool)

  /** A page load: `loadAuthData` replaces the in-memory user list by the contents of `auth.json`,
      local storage survives, and `redirectIfAuthenticated` then runs on the fresh list. Nothing
      in the dashboard writes `auth.json`, so statuses set by login or logout are gone. */
  function Reload(st: SessionState, file: seq<User>): (r: PageLoad)
    ensures r.state.users == file && r.state.store == st.store
    ensures r.dashboard <==> (
      && Truthy(st.store.currentUser)
      && exists i :: FirstNamed(file, st.store.currentUser.value, i) && file[i].status == 1)
  {
    var loaded := SessionState(file, st.store);
    PageLoad(loaded, RedirectIfAuthenticated(loaded))
  }

  /** After a successful login and a reload, the dashboard opens iff `auth.json` itself marks the
      first user of that name as active: the status that login set is not consulted. */
  lemma LoginThenReload(st: SessionState, file: seq<User>, username: string, password: string)
    requires username != ""
    requires ValidateLogin(st, username, password).accepted
    ensures var load := Reload(ValidateLogin(st, username, password).state, file);
      && load.state.store.currentUser == Some(username)
      && (load.dashboard <==> exists i :: FirstNamed(file, username, i) && file[i].status == 1)
  {
  }

  /** A user whose `auth.json` entry has status 0 logs in, yet the reload that follows shows the
      login form although the session still names the user. */
  lemma ReloadForgetsLogin(u: User)
    requires u.status == 0 && u.usr != ""
    ensures var st := SessionState([u], Store(None, NoHistory));
      var login := ValidateLogin(st, u.usr, u.pwd);
      && login.accepted
      && RedirectIfAuthenticated(login.state)
      && GetSession(Reload(login.state, [u]).state.store) == Some(u.usr)
      && !Reload(login.state, [u]).dashboard
  {
    var st := SessionState([u], Store(None, NoHistory));
    assert Credentials(st.users[0], u.usr, u.pwd);
    var login := ValidateLogin(st, u.usr, u.pwd);
    assert login.state.users == [u.(status := 1)];
    assert FirstNamed(login.state.users, u.usr, 0);
    forall i | FirstNamed([u], u.usr, i) ensures [u][i].status == 0 {
    }
  }

  /** A page load that trusts the session slot: the dashboard opens iff the session is truthy and
      `auth.json` still has a user of that name. */
  function ReloadKeepingSession(st: SessionState, file: seq<User>): (r: PageLoad)
    ensures r.state.users == file && r.state.store == st.store
    ensures r.dashboard <==> (
      && Truthy(st.store.currentUser)
      && exists i :: 0 <= i < |file| && Named(file[i], st.store.currentUser.value))
  {
    var current := GetSession(st.store);
    var known := Truthy(current) && FindFirst(file, u => Named(u, current.value)).Some?;
    PageLoad(SessionState(file, st.store), known)
  }

  /** With the session trusted, a login survives a reload as long as the user is still listed. */
  lemma LoginSurvivesReload(st: SessionState, file: seq<User>, username: string, password: string)
    requires username != ""
    requires ValidateLogin(st, username, password).accepted
    requires exists i :: 0 <= i < |file| && Named(file[i], username)
    ensures ReloadKeepingSession(ValidateLogin(st, username, password).state, file).dashboard
  {
  }

  /** After logout the dashboard does not open by itself, neither on the same page nor after the
      reload that `logout` ends with, whatever `auth.json` holds. */
  lemma LogoutClosesSession(st: SessionState, file: seq<User>)
    ensures !RedirectIfAuthenticated(Logout(st))
    ensures !Reload(Logout(st), file).dashboard
    ensures !ReloadKeepingSession(Logout(st), file).dashboard
  {
  }

  /** Logging out after a login with unique names deactivates exactly the logged-in user. */
  lemma LoginLogoutRestoresStatus(st: SessionState, username: string, password: string)
    requires UniqueNames(st.users) && username != ""
    requires ValidateLogin(st, username, password).accepted
    ensures var after := Logout(ValidateLogin(st, username, password).state);
      && after.store == st.store.(currentUser := None)
      && exists i :: (
        && 0 <= i < |st.users| && Credentials(st.users[i], username, password)
        && after.users == st.users[i := st.users[i].(status := 0)])
  {
    var r := ValidateLogin(st, username, password).state;
    var i :| 0 <= i < |st.users| && Credentials(st.users[i], username, password)
      && r.users == st.users[i := st.users[i].(status := 1)];
    assert FirstNamed(r.users, username, i);
    var after := Logout(r);
    forall j | 0 <= j < |r.users| ensures FirstNamed(r.users, username, j) <==> j == i {
    }
    assert after.users == st.users[i := st.users[i].(status := 0)];
  }
}

=== FILE: telemetry.dfy ===
/** The telemetry snapshot served by the backend at `/sensores`, and the gate the dashboard's
    poll callback applies to it before fanning it out (Safetrack/app.js `obtenerDatosBuses`). */
module Telemetry {
  import opened Wrappers
  import opened Values

  /** The `gps` object of a vehicle; a coordinate is `None` when it is `null` or missing. */
  datatype Gps = Gps(latitud: Option<Value>, longitud: Option<Value>)

  /** One vehicle's entry. `gps` is `None` when it is missing, `null` or not an object; a missing
      `alertas` is the empty sequence. */
  datatype VehicleState = VehicleState(
    gps: Option<Gps>,
    gasolina: Option<Value>,
    temperatura: Option<Value>,
    alertas: seq<string>)

  /** The value stored under a vehicle id: `null`, or something destructurable. A non-null
      primitive behaves as an object with every field missing. */
  datatype Entry = NullEntry | Vehicle(state: VehicleState)

  /** A snapshot: the payload's keys with their values, in `Object.keys` order. */
  type Snapshot = seq<(string, Entry)>

  /** The decoded response body: `null`, a scalar, or an object (an array is an object whose keys
      are its indices). `JSON.parse` keeps only the last of repeated keys, so a decoded object's
      keys are distinct (`DistinctIds`); the type does not enforce this, and only the members
      that require `DistinctIds` rely on it. The other members hold for any sequence of entries. */
  datatype Payload = NullPayload | Primitive(v: Scalar) | Object(entries: Snapshot)

  /** One poll: the request or its JSON decoding failed, or a payload was decoded. */
  datatype Fetched = TransportError | Received(payload: Payload)

  /** A JavaScript object never repeats a key. */
  predicate DistinctIds(s: Snapshot)
  {
    forall i, j :: 0 <= i < j < |s| ==> s[i].0 != s[j].0
  }

  /** Whether the entry can be placed on the map: a truthy `gps` whose `latitud` and `longitud`
      are both non-null (a coordinate of 0 counts). A `null` entry is read as `{}`. */
  predicate HasValidGps(e: Entry)
  {
    && e.Vehicle?
    && e.state.gps.Some?
    && e.state.gps.value.latitud.Some?
    && e.state.gps.value.longitud.Some?
  }

  /** The gate of the poll callback: only an object with at least one key is a snapshot;
      `null`, primitives, `{}` and transport errors are dropped for this tick. */
  function Accept(f: Fetched): (r: Option<Snapshot>)
    ensures r.Some? <==> f.Received? && f.payload.Object? && |f.payload.entries| > 0
    ensures r.Some? ==> r.value == f.payload.entries && |r.value| > 0
  {
    match f
    case Received(Object(entries)) => if |entries| == 0 then None else Some(entries)
    case _ => None
  }

  /** The entries the map and the sensor panel show: those with valid gps, in key order. */
  function Renderable(s: Snapshot): (r: Snapshot)
    ensures |r| <= |s|
    ensures forall p :: p in r <==> p in s && HasValidGps(p.1)
  {
    if |s| == 0 then []
    else (if HasValidGps(s[0].1) then [s[0]] else []) + Renderable(s[1..])
  }

  /** Filtering distributes over concatenation: the kept entries stay in snapshot order. */
  lemma {:induction false} RenderableConcat(a: Snapshot, b: Snapshot)
    ensures Renderable(a + b) == Renderable(a) + Renderable(b)
  {
    if |a| == 0 {
      assert a + b == b;
    } else {
      assert (a + b)[0] == a[0];
      assert (a + b)[1..] == a[1..] + b;
      RenderableConcat(a[1..], b);
    }
  }

  /** Filtering keeps keys distinct. */
  lemma {:induction false} RenderableDistinct(s: Snapshot)
    requires DistinctIds(s)
    ensures DistinctIds(Renderable(s))
  {
    if |s| > 0 {
      var tail := s[1..];
      assert DistinctIds(tail) by {
        forall i, j | 0 <= i < j < |tail| ensures tail[i].0 != tail[j].0 {
          assert tail[i] == s[i + 1] && tail[j] == s[j + 1];
        }
      }
      RenderableDistinct(tail);
      var rt := Renderable(tail);
      forall p | p in rt ensures p.0 != s[0].0 {
        assert p in tail;
        var k :| 0 <= k < |tail| && tail[k] == p;
        assert s[k + 1] == p;
      }
    }
  }
}

=== FILE: values.dfy ===
/** JSON scalars as the dashboard reads them, and JavaScript truthiness. */
module Values {

  /** A non-null JSON value. Objects and arrays are opaque: only their truthiness matters here. */
  datatype Value = Num(n: real) | Str(s: string) | Bool(b: bool) | Composite

  /** A number, string or boolean: a value that is neither an object nor an array. */
  type Scalar = v: Value | !v.Composite? witness Num(0.0)

  /** JavaScript falsiness of a non-null JSON value: `0`, `""` and `false` (JSON has no NaN). */
  predicate Falsy(v: Value)
  {
    v == Num(0.0) || v == Str("") || v == Bool(false)
  }
}

=== FILE: wrappers.dfy ===
/** The optional-value and success-or-error datatypes shared by every module of the model. */
module Wrappers {

  /** A value that may be missing: JavaScript `null`/`undefined`, a missing JSON key. */
  datatype Option<+T> = None | Some(value: T)

  /** The outcome of an operation that can fail with an error value. */
  datatype Result<+T, +E> = Success(value: T) | Failure(error: E)
}
